=== FILE: README.md ===
# Live channel multiplexer of the CoinGecko dashboard, in Dafny

The dashboard keeps one WebSocket to CoinGecko's streaming API and multiplexes
three channels over it: `CGSimplePrice` (price snapshots), `OnchainTrade`
(trades of a pool) and `OnchainOHLCV` (the candle in progress). All of this
lives in the React hook `useCoinGeckoWebSocket`. This project models that hook
as a pure state machine:

- `State` holds what the hook keeps in React state and refs: the price
  snapshot, the trade feed (newest first, at most 7), the current candle, the
  set of acknowledged channels, the `isWsReady` flag, the phase of the socket
  `wsRef.current` holds (none, connecting, open, closing), and a log of every
  command written to the socket.
- `Event` is one of: the connection effect creating a socket (`Connect`) or
  running its cleanup (`TornDown`); the socket callbacks (`Opened`, `Closed`,
  `Errored`, `Received(frame)`); or the microtask the subscription effect
  queues (`TargetChanged(target)`).
- `LiveSocket.Step(state, event)` is the whole hook. `Traces.Run` folds it
  over an event sequence.

Modules:

| file | module | contents |
|---|---|---|
| optional.dfy | `Optional` | `Option`, with `GetOr` as JavaScript's `??` |
| commands.dfy | `Commands` | outbound commands, payloads, channel names, pong counting |
| frames.dfy | `Frames` | the parsed inbound frame, price/trade/candle records, `Decode` |
| trade_feed.dfy | `TradeFeed` | the 7-entry newest-first trade window |
| registry.dfy | `Registry` | the acknowledged-channel set and the subscribe/unsubscribe command lists |
| pool.dfy | `Pool` | `poolId.replace('_', ':')`, which replaces only the first `_` |
| live_socket.dfy | `LiveSocket` | `State`, `Event`, `HandleFrame`, `ApplyTarget`, `Microtask`, `Step` |
| traces.dfy | `Traces` | `Run` and the properties that hold over event sequences |

Modelling choices:

- Frames and commands are abstract records, not JSON text. Each `Frame` key is
  an `Option`. The key `c` is a `Scalar` (text or number) because it carries
  the discriminator (`"C1"`, `"G2"`) on price and trade frames and the close
  price on candle frames.
- The registry is a JavaScript `Set`, which iterates in insertion order. It is
  therefore modelled as a sequence without repeats, so the order of the
  unsubscribe commands is exact. A key is an `Option<string>`. An
  acknowledgement without an identifier parses as `{}`, and the hook then adds
  `undefined` to the set. That case becomes the key `None`.
- Numbers are integers. Where the hook writes `?? 0` (the price fields, every
  timestamp, the candle's fields) a missing number becomes 0. A trade's price,
  value and amount are copied as they are, absent included.

## Behaviour worth noting

- No Pending state. `subscribe` de-duplicates only against channels already
  acknowledged, and only an acknowledgement adds a channel. Two subscribes
  before the ack both go out (`Traces.SubscribeTwiceBeforeAck`,
  `Traces.RetargetTwiceBeforeAck`).
- Close and error only reset the ready flag. They keep the registry and the
  data (`LiveSocket.Step`).
- Data frames are not checked against the registry. A trade frame that arrives
  under a price-only target still enters the feed
  (`Traces.PriceOnlyTargetStillTakesTrades`).
- One frame may update price, trade and candle together. The three
  discriminator tests are independent `if`s (`Frames.Decode`,
  `LiveSocket.HandleFrame`, `LiveSocket.PriceAndCandleFromOneFrame`).
- A change of target never sends an unsubscribe. React runs the connection
  cleanup first, which empties the registry and closes the socket, and then
  creates the new socket. The subscription effect still sees the old flag
  set. Its microtask clears the data, and its first `send` then throws on the
  socket that is still connecting. The requests go out only after the old
  socket's close event and the new socket's open (`Traces.ArgsChangeScenario`).
- If the new socket opens before the old socket's close event, the flag is
  already true, so the microtask is not re-run. The late close then clears the
  flag. The hook stays on an open socket, reports itself disconnected, and has
  requested nothing (`Traces.OpenBeforeStaleClose`).

## Model

| member | source | states |
|---|---|---|
| Frames.Decode | hooks/useCoinGeckoWebSocket.ts:57-107 | A frame is a ping iff `type` is "ping" and an ack iff `type` is "confirm_subscription". Only an unparsable identifier breaks an ack; an absent one names no channel. A data frame carries a price iff `c` is "C1", a trade iff `c` is "G2", and a candle iff `ch` is "G3", each independently. It is ignored iff none of these match |
| TradeFeed.Window | hooks/useCoinGeckoWebSocket.ts:94 | `slice(0, 7)` keeps a prefix of length min(7, n) |
| TradeFeed.Push | hooks/useCoinGeckoWebSocket.ts:94 | After a push the new trade is first. The rest is a prefix of the old feed. The length is min(7, old length + 1) |
| TradeFeed.PushAllIsNewestWindow | hooks/useCoinGeckoWebSocket.ts:94 | Pushing any sequence of trades leaves the newest 7 arrivals, newest first, followed by the front of the earlier feed |
| Registry.Track | hooks/useCoinGeckoWebSocket.ts:67 | `Set.add` keeps the existing order. It adds exactly the given key, adds it at most once, and keeps the set free of repeats |
| Registry.SubscribeCommands | hooks/useCoinGeckoWebSocket.ts:138-150 | `subscribe` sends nothing iff the channel is already acknowledged. Otherwise it sends `subscribe`, then `message` only when data is given. It never sends a pong or an unsubscribe |
| Registry.UnsubscribeCommands | hooks/useCoinGeckoWebSocket.ts:128-136 | `unsubscribeAll` sends one unsubscribe per tracked key, in the set's iteration order |
| Registry.UnsubscribeNamesEachTrackedOnce | hooks/useCoinGeckoWebSocket.ts:128-136 | The unsubscribes name exactly the tracked keys, each once, and include no pong |
| Pool.ReplaceFirstUnderscore | hooks/useCoinGeckoWebSocket.ts:166 | The length is kept. The character at k becomes ':' iff it is the first `_`; every other character is unchanged |
| Pool.PoolAddressShape | hooks/useCoinGeckoWebSocket.ts:166 | An id without `_` is sent unchanged. Otherwise the address is the part before the first `_`, then ':', then the rest, later `_`s included |
| Pool.PoolAddressExamples | hooks/useCoinGeckoWebSocket.ts:166 | "A_B" becomes "A:B", "C_D" becomes "C:D", and "solana" is unchanged |
| Pool.PoolAddressKeepsLaterUnderscores | hooks/useCoinGeckoWebSocket.ts:166 | "eth_0xab_cd" becomes "eth:0xab_cd": only the first `_` is replaced |
| LiveSocket.PriceAndCandleFromOneFrame | hooks/useCoinGeckoWebSocket.ts:72-106 | A frame with `c` = "C1" and `ch` = "G3" sets both the price and the candle, and the candle's close is the text "C1". The feed is untouched |
| LiveSocket.HandleFrame | hooks/useCoinGeckoWebSocket.ts:57-107 | A ping appends exactly one pong and changes nothing else. An ack adds exactly the parsed channel and changes nothing else; an unparsable ack changes nothing. Data frames never send and never touch the registry, the flag or the socket phase. A price frame replaces the snapshot wholesale, with usd = price = `p` and missing numbers 0. A trade frame puts the trade first, keeps a prefix of the old feed after it, and keeps at most 7. A candle frame replaces the candle with `[t, o, h, l, c]`, missing numbers 0. An unknown frame changes nothing |
| LiveSocket.ApplyTarget | hooks/useCoinGeckoWebSocket.ts:152-179 | The microtask body, when every send goes through, clears price, trades and candle and empties the registry, keeping the flag and the socket phase. It sends the unsubscribes for the registry it found, then exactly the target's requests, so no de-duplication drops one |
| LiveSocket.Microtask | hooks/useCoinGeckoWebSocket.ts:123-179 | Without a socket nothing happens. On a connecting socket only the three slices are cleared: the first unguarded send throws, so nothing is sent and the registry is kept. On an open or closing socket the full body runs |
| LiveSocket.TargetRequests | hooks/useCoinGeckoWebSocket.ts:158-178 | The price channel is always requested with `[coinId]`. The trade and candle channels, the candle with the interval, are requested for the first-`_`-to-':' address iff the pool id is non-empty |
| LiveSocket.TargetChangeCommands | hooks/useCoinGeckoWebSocket.ts:152-179 | When every send goes through, the microtask body sends one unsubscribe per channel in the registry it found, in order, before any subscribe or message. It then sends the price subscription and never a pong |
| LiveSocket.Step | hooks/useCoinGeckoWebSocket.ts:41-180 | The log only grows. Connect starts a connecting socket and changes nothing else. Open sets the flag and marks the socket open. Close and error only clear the flag. An inbound frame is exactly `HandleFrame`. Teardown of a live socket empties the registry, marks the socket closing and logs the close, keeping the data and the flag. A target change does nothing while the flag is false and otherwise runs the microtask. Every step keeps the feed at 7 or fewer and the registry free of repeats |
| Traces.RunPreservesValid | hooks/useCoinGeckoWebSocket.ts:57-180 | Over any event sequence the feed stays at 7 or fewer and the registry free of repeats |
| Traces.RunExtendsLog | hooks/useCoinGeckoWebSocket.ts:47-51 | Over any event sequence earlier commands are never withdrawn or reordered |
| Traces.StepPongs | hooks/useCoinGeckoWebSocket.ts:60-63 | A single step sends one pong for a ping frame and no pong for any other event, teardown and target change included |
| Traces.RunPongCount | hooks/useCoinGeckoWebSocket.ts:60-63 | Over any event sequence the log gains exactly one pong per ping frame and no other pong |
| Traces.RunTracksOnlyAcked | hooks/useCoinGeckoWebSocket.ts:65-68 | Every channel in the registry was there before or was named by an acknowledgement. Sending a subscribe records nothing |
| Traces.RunIgnoresUnknownFrames | hooks/useCoinGeckoWebSocket.ts:57-107 | Any number of unrecognised frames leaves the whole state, log included, unchanged |
| Traces.RunFeedPushesEachTrade | hooks/useCoinGeckoWebSocket.ts:84-95 | Without a target change, the feed after any run is the earlier feed with each received trade pushed in arrival order |
| Traces.RunTradeFeed | hooks/useCoinGeckoWebSocket.ts:84-95 | Without a target change, the feed after any run is the newest 7 trades received, newest first, followed by the front of the earlier feed |
| Traces.RetargetForgetsEarlierTrades | hooks/useCoinGeckoWebSocket.ts:152-155 | After a microtask on any existing socket, even one whose sends throw, the feed holds only trades received after it |
| Traces.SubscribeTwiceBeforeAck | hooks/useCoinGeckoWebSocket.ts:138-150 | Two subscribes to an unacknowledged channel send the commands twice and leave the registry unchanged |
| Traces.SubscribeAfterAckIsSilent | hooks/useCoinGeckoWebSocket.ts:139 | Once a channel's ack has arrived, subscribing to it sends nothing |
| Traces.RetargetTwiceBeforeAck | hooks/useCoinGeckoWebSocket.ts:152-179 | If the microtask runs twice on an open socket with no ack between the runs, the registry it first found is unsubscribed once and every request is sent twice |
| Traces.PriceOnlyTargetStillTakesTrades | hooks/useCoinGeckoWebSocket.ts:84-95 | A target without a pool requests the price channel alone. A trade frame that still arrives enters the feed |
| Traces.PoolChangeScenario | hooks/useCoinGeckoWebSocket.ts:152-179 | The microtask for pool "C_D", run on an open socket whose registry holds the three acknowledged channels, clears the data. It then sends the three unsubscribes, then the six requests for address "C:D" |
| Traces.ArgsChangeScenario | hooks/useCoinGeckoWebSocket.ts:109-126 | A target change as React runs it (cleanup, new socket, microtask) sends only the close and clears the data. After the old socket's close and the new socket's open, the next microtask sends exactly the target's requests and no unsubscribe |
| LiveSocket.InitialValid | hooks/useCoinGeckoWebSocket.ts:29-35 | The state at mount (no data, empty feed, empty registry, flag false, no socket, nothing sent) satisfies the invariant every step keeps |
| Traces.FirstMount | hooks/useCoinGeckoWebSocket.ts:42-55 | On first mount, connect, open and the queued microtask send exactly the target's requests and nothing to unsubscribe. The socket is then open and the flag set |
| Traces.OpenBeforeStaleClose | hooks/useCoinGeckoWebSocket.ts:53-55 | If the new socket opens before the old socket's close event, the hook ends on an open socket with the flag false and nothing requested. Further microtasks are ignored |

## Left out

- The WebSocket itself, `JSON.parse`/`JSON.stringify` and the URL built from environment variables (lines 5, 44, 58). Frames and commands are abstract records. A frame that is not valid JSON, or not an object, is not modelled.
- React's `useState`/`useRef`/`useEffect` and `queueMicrotask` become explicit events applied in order. The events a browser and React would produce are not derived. In particular, the caller builds a new target object on every render, so the connection effect re-runs on each render; that is outside this model.
- The `readyState === OPEN` guard on the pong (line 48) is not modelled. A message is only dispatched while the socket is open, so the guard holds whenever a ping is handled.
- Which events follow which is not derived from React's effect schedule; the events are supplied in order. When the target becomes absent, the cleanup still runs (`TornDown`), but no `Connect` and no microtask follow, because both effects return early without a target (lines 42 and 120). So `TargetChanged` always carries a target.
- Only the current socket's phase is kept. `Closed` and `Errored` may come from the current socket or from one already torn down, and only the flag is reset either way. After the server closes the current socket, the model still calls it open. No microtask can reach it then, because the flag is false, and no frame arrives, because a browser dispatches no message on a socket that is not open.
- On a closing socket `ws.send` does not throw; the browser discards the data. The log still records those commands, because the hook hands them to `send`.
- LiveSocket.ApplyTarget: its unsubscribes only matter when the microtask meets a non-empty registry on an open socket. With one socket per target, the hook's own schedule never produces that, because the cleanup empties the registry before any microtask of the new socket (see `Traces.ArgsChangeScenario`). The contract describes the microtask body, not a reachable target change.
- LiveSocket.TargetChangeCommands: as for ApplyTarget, its unsubscribes describe the microtask body on a non-empty registry, which an args change never reaches.
- Traces.PoolChangeScenario: it runs the microtask directly on a registry of three acknowledged channels. It is not the result of a change of target in the hook, which sends no unsubscribe (see `Traces.ArgsChangeScenario`).
- Traces.RetargetTwiceBeforeAck: the hook's schedule runs the microtask once per open socket, so this shows `subscribe`'s ack-only de-duplication rather than a trace the hook produces.
- `Number(...)` coercion of the candle's open, high, low and close (lines 101-104) is not modelled. Numbers are integers. The close keeps the raw value of key `c`, so a text close is kept as text; the source would turn it into a number or NaN.
- Floating-point prices are not modelled. Values are only copied, never computed.
- No reconnection and no acknowledgement timeout: the hook has neither.
- Page and presentation components, including the `'b'` buy/sell display mapping, and the REST helpers, are not part of this model.

=== FILE: commands.dfy ===
/** The commands the hook writes to the socket, as abstract records rather
    than JSON text. */
module Commands {
  import opened Optional

  /** The candle interval the page passes in: `'1s' | '1m'`. */
  datatype Interval = OneSecond | OneMinute

  /** The `data` object of a parameterised `message` command. */
  datatype Payload =
    | SetTokens(coinIds: seq<string>)                              // action "set_tokens"
    | SetPools(poolAddresses: seq<string>, interval: Option<Interval>)  // action "set_pools"

  datatype Command =
    | Pong                                          // {type: "pong"}
    | Subscribe(channel: string)                    // {command: "subscribe", identifier}
    | Message(channel: string, data: Payload)       // {command: "message", identifier, data}
    | Unsubscribe(tracked: Option<string>)           // {command: "unsubscribe", identifier}
    | CloseSocket                                   // ws.close()

  const PriceChannel: string := "CGSimplePrice"
  const TradeChannel: string := "OnchainTrade"
  const CandleChannel: string := "OnchainOHLCV"

  /** How many keepalive replies a command sequence holds. */
  function CountPongs(cmds: seq<Command>): nat {
    if cmds == [] then 0
    else (if cmds[0] == Pong then 1 else 0) + CountPongs(cmds[1..])
  }

  lemma {:induction false} CountPongsAppend(a: seq<Command>, b: seq<Command>)
    ensures CountPongs(a + b) == CountPongs(a) + CountPongs(b)
    decreases |a|
  {
    if a == [] {
      assert a + b == b;
    } else {
      assert (a + b)[1..] == a[1..] + b;
      CountPongsAppend(a[1..], b);
    }
  }

  lemma {:induction false} CountPongsAbsent(cmds: seq<Command>)
    requires Pong !in cmds
    ensures CountPongs(cmds) == 0
    decreases |cmds|
  {
    if cmds != [] {
      assert cmds[0] in cmds;
      assert forall c | c in cmds[1..] :: c in cmds;
      CountPongsAbsent(cmds[1..]);
    }
  }
}

=== FILE: frames.dfy ===
/** The inbound side of the live socket: the keys a parsed frame may carry, the
    three records the hook keeps (price snapshot, trade, candle), and the
    decoder that sorts a frame into the kind of event it carries. */
module Frames {
  import opened Optional

  /** A wire value that may be text or a number. The key `c` is the
      discriminator ("C1", "G2") on price and trade frames but the close price
      on candle frames, so it is the one key whose type varies. */
  datatype Scalar = Text(text: string) | Num(num: int)

  /** The `identifier` of a subscription acknowledgement, once JSON-decoded. */
  datatype Identifier =
    | ChannelNamed(name: string)  // an object with a string `channel`
    | NoChannel                   // an object without `channel`
    | Unparsable                  // JSON.parse throws, or the value cannot be destructured

  /** An inbound frame after JSON.parse: every key optional. Numbers are
      integers here; the hook defaults them or passes them on, but never
      computes with them. */
  datatype Frame = Frame(
    msgType: Option<string>,         // "type"
    identifier: Option<Identifier>,  // "identifier"
    code: Option<Scalar>,            // "c"
    channelCode: Option<string>,     // "ch"
    coin: Option<string>,            // "i"
    price: Option<int>,              // "p"
    change24h: Option<int>,          // "pp"
    marketCap: Option<int>,          // "m"
    volume24h: Option<int>,          // "v"
    timestamp: Option<int>,          // "t"
    tradePrice: Option<int>,         // "pu"
    tradeValue: Option<int>,         // "vo"
    tradeAmount: Option<int>,        // "to"
    tradeType: Option<string>,       // "ty"
    open: Option<int>,               // "o"
    high: Option<int>,               // "h"
    low: Option<int>                 // "l"
  )

  datatype PriceSnapshot = PriceSnapshot(
    usd: int, coin: Option<string>, price: int, change24h: int,
    marketCap: int, volume24h: int, timestamp: int)

  /** A trade as the feed keeps it; price, value, amount and side are copied
      from the frame without defaults. */
  datatype Trade = Trade(
    price: Option<int>, value: Option<int>, amount: Option<int>,
    side: Option<string>, timestamp: int)

  /** The OHLC tuple `[t, o, h, l, c]` of the candle in progress. */
  datatype Candle = Candle(timestamp: int, open: int, high: int, low: int, close: Scalar)

  /** What one frame means to the hook. A data frame may carry a price, a trade
      and a candle at once: the source tests the three discriminators
      independently. `Data(None, None, None)` is a frame the hook ignores. */
  datatype Inbound =
    | Ping
    | Ack(channel: Option<string>)
    | BrokenAck
    | Data(price: Option<PriceSnapshot>, trade: Option<Trade>, candle: Option<Candle>)

  predicate IsPing(f: Frame) { f.msgType == Some("ping") }
  predicate IsAck(f: Frame) { f.msgType == Some("confirm_subscription") }
  predicate IsPriceFrame(f: Frame) { f.code == Some(Text("C1")) }
  predicate IsTradeFrame(f: Frame) { f.code == Some(Text("G2")) }
  predicate IsCandleFrame(f: Frame) { f.channelCode == Some("G3") }

  /** A frame none of whose discriminators the hook recognises. */
  predicate IsUnknown(f: Frame) {
    !IsPing(f) && !IsAck(f) && !IsPriceFrame(f) && !IsTradeFrame(f) && !IsCandleFrame(f)
  }

  function OrZero(x: Option<int>): int { x.GetOr(0) }

  function PriceOf(f: Frame): PriceSnapshot {
    PriceSnapshot(
      usd := OrZero(f.price), coin := f.coin, price := OrZero(f.price),
      change24h := OrZero(f.change24h), marketCap := OrZero(f.marketCap),
      volume24h := OrZero(f.volume24h), timestamp := OrZero(f.timestamp))
  }

  function TradeOf(f: Frame): Trade {
    Trade(f.tradePrice, f.tradeValue, f.tradeAmount, f.tradeType, OrZero(f.timestamp))
  }

  function CandleOf(f: Frame): Candle {
    Candle(OrZero(f.timestamp), OrZero(f.open), OrZero(f.high), OrZero(f.low),
           f.code.GetOr(Num(0)))
  }

  /** `JSON.parse(identifier ?? '{}').channel`: an absent identifier parses
      as `{}`, whose channel is undefined. */
  function AckOf(id: Option<Identifier>): Inbound {
    match id
    case None => Ack(None)
    case Some(ChannelNamed(name)) => Ack(Some(name))
    case Some(NoChannel) => Ack(None)
    case Some(Unparsable) => BrokenAck
  }

  function Decode(f: Frame): (r: Inbound)
    ensures r.Ping? <==> IsPing(f)
    ensures r.Ack? || r.BrokenAck? <==> IsAck(f)
    ensures r.Ack? && r.channel.Some? <==>
              IsAck(f) && f.identifier.Some? && f.identifier.value.ChannelNamed?
    ensures r.Ack? && r.channel.Some? ==> r.channel.value == f.identifier.value.name
    ensures r.BrokenAck? <==> IsAck(f) && f.identifier == Some(Unparsable)
    ensures r.Data? ==> (r.price.Some? <==> IsPriceFrame(f))
    ensures r.Data? ==> (r.trade.Some? <==> IsTradeFrame(f))
    ensures r.Data? ==> (r.candle.Some? <==> IsCandleFrame(f))
    ensures r == Data(None, None, None) <==> IsUnknown(f)
  {
    if IsPing(f) then Ping
    else if IsAck(f) then AckOf(f.identifier)
    else Data(
      if IsPriceFrame(f) then Some(PriceOf(f)) else None,
      if IsTradeFrame(f) then Some(TradeOf(f)) else None,
      if IsCandleFrame(f) then Some(CandleOf(f)) else None)
  }
}

=== FILE: live_socket.dfy ===
/** The hook `useCoinGeckoWebSocket` as a pure state machine. React state,
    refs, effects and the microtask queue become one immutable `State` and
    explicit events applied in order; everything the hook writes to the socket
    is appended to `log`. */
module LiveSocket {
  import opened Optional
  import opened Frames
  import opened Commands
  import opened Registry
  import TradeFeed
  import Pool

  /** The hook's argument `{coinId, poolId?, liveInterval}`. */
  datatype Target = Target(coinId: string, poolId: Option<string>, interval: Interval)

  /** The `readyState` of the socket `wsRef.current` refers to. `NoSocket`
      until the first one is created; `Closing` once the cleanup has called
      `ws.close()` on it. */
  datatype Phase = NoSocket | Connecting | Open | Closing

  datatype State = State(
    price: Option<PriceSnapshot>,
    trades: seq<Trade>,
    ohlcv: Option<Candle>,
    subscribed: seq<Key>,   // acknowledged channels, in insertion order
    isReady: bool,          // isWsReady, returned as isConnected
    socket: Phase,          // the current socket
    log: seq<Command>)      // everything sent on the socket, oldest first

  const Initial: State := State(None, [], None, [], false, NoSocket, [])

  /** The state at mount satisfies the invariant every step keeps. */
  lemma InitialValid()
    ensures Valid(Initial)
    ensures Initial.socket.NoSocket? && !Initial.isReady && Initial.log == []
  {
  }

  /** `Connect` is the connection effect creating a socket for a target;
      `TornDown` is its cleanup, run before the next `Connect` or on unmount.
      `Opened` is the current socket's open callback. `Closed` and `Errored`
      are the close and error callbacks of any socket the hook created, the
      current one or one already torn down: all of them only reset the flag.
      `Received` is an inbound frame. `TargetChanged` is the microtask the
      subscription effect queues when the target or the flag changes while a
      target is set and the flag is true. */
  datatype Event =
    | Connect
    | Opened
    | Closed
    | Errored
    | Received(frame: Frame)
    | TargetChanged(target: Target)
    | TornDown

  predicate Valid(s: State) {
    |s.trades| <= TradeFeed.Cap && NoDup(s.subscribed)
  }

  /** `if (poolId)`: absent and empty ids are both falsy. */
  predicate HasPool(t: Target) {
    t.poolId.Some? && t.poolId.value != ""
  }

  /** A frame that reaches the data branches: neither ping nor ack returned
      early. */
  predicate IsDataFrame(f: Frame) {
    !IsPing(f) && !IsAck(f)
  }

  function Emit(s: State, cmds: seq<Command>): State {
    s.(log := s.log + cmds)
  }

  /** `ws.onmessage`. */
  function HandleFrame(s: State, f: Frame): (r: State)
    // keepalive
    ensures IsPing(f) ==> r == s.(log := s.log + [Pong])
    ensures !IsPing(f) ==> r.log == s.log
    // acknowledgement: the parsed channel joins the registry, nothing else moves
    ensures IsAck(f) ==> r == s.(subscribed := r.subscribed)
    ensures IsAck(f) ==> s.subscribed <= r.subscribed
    ensures NoDup(s.subscribed) ==> NoDup(r.subscribed)
    ensures IsAck(f) && f.identifier.Some? && f.identifier.value.ChannelNamed? ==>
              forall k :: k in r.subscribed <==> k in s.subscribed || k == Some(f.identifier.value.name)
    ensures IsAck(f) && (f.identifier.None? || f.identifier == Some(NoChannel)) ==>
              forall k :: k in r.subscribed <==> k in s.subscribed || k == None
    ensures IsAck(f) && f.identifier == Some(Unparsable) ==> r == s
    // data frames never touch the registry, the flag or the log
    ensures !IsAck(f) ==> r.subscribed == s.subscribed
    ensures r.isReady == s.isReady
    ensures r.socket == s.socket
    ensures IsUnknown(f) ==> r == s
    // price: replaced wholesale, usd and price both from `p`, missing numbers 0
    ensures IsDataFrame(f) && IsPriceFrame(f) ==>
              && r.price.Some?
              && r.price.value.usd == f.price.GetOr(0)
              && r.price.value.price == r.price.value.usd
              && r.price.value.coin == f.coin
              && r.price.value.change24h == f.change24h.GetOr(0)
              && r.price.value.marketCap == f.marketCap.GetOr(0)
              && r.price.value.volume24h == f.volume24h.GetOr(0)
              && r.price.value.timestamp == f.timestamp.GetOr(0)
    ensures !(IsDataFrame(f) && IsPriceFrame(f)) ==> r.price == s.price
    // trades: the new trade first, the previous feed after it, at most 7
    ensures IsDataFrame(f) && IsTradeFrame(f) ==>
              && 0 < |r.trades| <= TradeFeed.Cap
              && r.trades[0] == Trade(f.tradePrice, f.tradeValue, f.tradeAmount, f.tradeType, f.timestamp.GetOr(0))
              && r.trades[1..] <= s.trades
              && |r.trades| == (if |s.trades| < TradeFeed.Cap then |s.trades| + 1 else TradeFeed.Cap)
    ensures !(IsDataFrame(f) && IsTradeFrame(f)) ==> r.trades == s.trades
    // candle: replaced wholesale by [t, o, h, l, c], missing numbers 0
    ensures IsDataFrame(f) && IsCandleFrame(f) ==>
              && r.ohlcv.Some?
              && r.ohlcv.value.timestamp == f.timestamp.GetOr(0)
              && r.ohlcv.value.open == f.open.GetOr(0)
              && r.ohlcv.value.high == f.high.GetOr(0)
              && r.ohlcv.value.low == f.low.GetOr(0)
              && r.ohlcv.value.close == f.code.GetOr(Num(0))
    ensures !(IsDataFrame(f) && IsCandleFrame(f)) ==> r.ohlcv == s.ohlcv
  {
    match Decode(f)
    case Ping => Emit(s, [Pong])
    case Ack(key) => s.(subscribed := Track(s.subscribed, key))
    case BrokenAck => s
    case Data(p, t, c) =>
      s.(price := if p.Some? then p else s.price,
         trades := if t.Some? then TradeFeed.Push(s.trades, t.value) else s.trades,
         ohlcv := if c.Some? then c else s.ohlcv)
  }

  /** The three data tests are independent `if`s: a frame with `c == "C1"`
      and `ch == "G3"` sets the price AND the candle, and the candle's close
      is the text "C1" that `c` carried. */
  lemma PriceAndCandleFromOneFrame(s: State, f: Frame)
    requires IsDataFrame(f) && f.code == Some(Text("C1")) && IsCandleFrame(f)
    ensures HandleFrame(s, f).price.Some? && HandleFrame(s, f).ohlcv.Some?
    ensures HandleFrame(s, f).ohlcv.value.close == Text("C1")
    ensures HandleFrame(s, f).trades == s.trades
  {
  }

  /** `subscribe(channel, data)`: sends, but leaves recording to the ack. */
  function SubscribeOn(s: State, channel: string, data: Option<Payload>): State {
    Emit(s, SubscribeCommands(s.subscribed, channel, data))
  }

  /** `unsubscribeAll()`: one unsubscribe per tracked key, then forget them. */
  function UnsubscribeAll(s: State): State {
    s.(log := s.log + UnsubscribeCommands(s.subscribed), subscribed := [])
  }

  /** The subscription requests for a target, sent once the registry is
      empty: the price channel always, with `[coinId]`; the trade and candle
      channels, the candle one with the interval, only with a non-empty pool
      id, for the address whose first `_` became `:`. Never an unsubscribe or
      a pong. */
  function TargetRequests(t: Target): (req: seq<Command>)
    ensures |req| == (if HasPool(t) then 6 else 2)
    ensures req[0] == Subscribe(PriceChannel)
    ensures req[1] == Message(PriceChannel, SetTokens([t.coinId]))
    ensures HasPool(t) ==>
              var address := Pool.PoolAddress(t.poolId.value);
              req[2..] == [Subscribe(TradeChannel), Message(TradeChannel, SetPools([address], None)),
                           Subscribe(CandleChannel), Message(CandleChannel, SetPools([address], Some(t.interval)))]
    ensures forall i :: 0 <= i < |req| ==> req[i].Subscribe? || req[i].Message?
  {
    var priceRequest := [Subscribe(PriceChannel), Message(PriceChannel, SetTokens([t.coinId]))];
    if HasPool(t) then
      var address := Pool.PoolAddress(t.poolId.value);
      priceRequest
      + [Subscribe(TradeChannel), Message(TradeChannel, SetPools([address], None))]
      + [Subscribe(CandleChannel), Message(CandleChannel, SetPools([address], Some(t.interval)))]
    else priceRequest
  }

  /** With a pool, the six requests in full. */
  lemma PoolTargetRequests(t: Target, address: string)
    requires HasPool(t) && Pool.PoolAddress(t.poolId.value) == address
    ensures TargetRequests(t) ==
              [Subscribe(PriceChannel), Message(PriceChannel, SetTokens([t.coinId])),
               Subscribe(TradeChannel), Message(TradeChannel, SetPools([address], None)),
               Subscribe(CandleChannel), Message(CandleChannel, SetPools([address], Some(t.interval)))]
  {
  }

  /** The body of the microtask on a socket that accepts sends: every `send`
      goes through. */
  function ApplyTarget(s: State, t: Target): (r: State)
    ensures r.price.None? && r.trades == [] && r.ohlcv.None?
    ensures r.subscribed == []
    ensures r.isReady == s.isReady
    ensures r.socket == s.socket
    ensures r.log == s.log + UnsubscribeCommands(s.subscribed) + TargetRequests(t)
  {
    var cleared := s.(price := None, trades := [], ohlcv := None);
    var base := UnsubscribeAll(cleared);
    var withPrice := SubscribeOn(base, PriceChannel, Some(SetTokens([t.coinId])));
    if HasPool(t) then
      var address := Pool.PoolAddress(t.poolId.value);
      var withTrades := SubscribeOn(withPrice, TradeChannel, Some(SetPools([address], None)));
      SubscribeOn(withTrades, CandleChannel, Some(SetPools([address], Some(t.interval))))
    else withPrice
  }

  /** What a target change sends, command by command: first one unsubscribe
      per previously acknowledged channel, then the price subscription with
      `[coinId]`, then, only with a pool id, the trade and candle subscriptions
      for the address whose first `_` became `:`. */
  lemma TargetChangeCommands(s: State, t: Target)
    ensures var sent := ApplyTarget(s, t).log[|s.log|..];
            var n := |s.subscribed|;
            && sent == UnsubscribeCommands(s.subscribed) + TargetRequests(t)
            && |sent| == n + (if HasPool(t) then 6 else 2)
            && (forall i :: 0 <= i < n ==> sent[i] == Unsubscribe(s.subscribed[i]))
            && (forall i :: n <= i < |sent| ==> sent[i].Subscribe? || sent[i].Message?)
            && sent[n] == Subscribe(PriceChannel)
            && sent[n + 1] == Message(PriceChannel, SetTokens([t.coinId]))
            && Pong !in sent
  {
  }

  /** The microtask as the hook runs it, on whatever socket `wsRef.current`
      holds. Without a socket it returns before queueing anything. On a socket
      still connecting the unguarded `ws.send` throws at its first call, after
      the three slices were cleared: the registry is either empty, so the
      price subscribe throws, or not, so the first unsubscribe throws before
      `clear()`. Either way nothing is sent and the registry is kept. An open
      or closing socket accepts every send (a closing one discards them). */
  function Microtask(s: State, t: Target): (r: State)
    ensures s.socket.NoSocket? ==> r == s
    ensures s.socket.Connecting? ==> r == s.(price := None, trades := [], ohlcv := None)
    ensures s.socket.Open? || s.socket.Closing? ==> r == ApplyTarget(s, t)
    ensures !s.socket.NoSocket? ==> r.price.None? && r.trades == [] && r.ohlcv.None?
  {
    match s.socket
    case NoSocket => s
    case Connecting => s.(price := None, trades := [], ohlcv := None)
    case _ => ApplyTarget(s, t)
  }

  /** `Step` is the whole hook: one event in, the next state out. */
  function Step(s: State, e: Event): (r: State)
    // the log only grows
    ensures s.log <= r.log
    // a new socket starts connecting; nothing else moves
    ensures e.Connect? ==> r == s.(socket := Connecting)
    // only the socket callbacks move the flag, and they move nothing else:
    // close and error do not clear the registry or the data
    ensures e.Opened? ==> r == s.(isReady := true, socket := Open)
    ensures e.Closed? || e.Errored? ==> r == s.(isReady := false)
    ensures !(e.Opened? || e.Closed? || e.Errored?) ==> r.isReady == s.isReady
    // an inbound frame is handled by `onmessage` alone
    ensures e.Received? ==> r == HandleFrame(s, e.frame)
    // teardown of a live socket forgets the registry and closes the socket,
    // keeping the data and the flag
    ensures e.TornDown? && (s.socket.Connecting? || s.socket.Open?) ==>
              r == s.(subscribed := [], socket := Closing, log := s.log + [CloseSocket])
    ensures e.TornDown? && !(s.socket.Connecting? || s.socket.Open?) ==> r == s
    // the microtask only runs while the flag is set
    ensures e.TargetChanged? && !s.isReady ==> r == s
    ensures e.TargetChanged? && s.isReady ==> r == Microtask(s, e.target)
    ensures Valid(s) ==> Valid(r)
  {
    match e
    case Connect => s.(socket := Connecting)
    case Opened => s.(isReady := true, socket := Open)
    case Closed => s.(isReady := false)
    case Errored => s.(isReady := false)
    case Received(f) => HandleFrame(s, f)
    case TargetChanged(t) => if s.isReady then Microtask(s, t) else s
    case TornDown =>
      if s.socket.Connecting? || s.socket.Open? then
        s.(subscribed := [], socket := Closing, log := s.log + [CloseSocket])
      else s
  }
}

=== FILE: optional.dfy ===
/** Optional values. `None` stands for JavaScript's `undefined`/`null` wherever
    the hook reads a key that a frame may omit. */
module Optional {

  datatype Option<+T> = None | Some(value: T) {

    /** The value, or `default` when absent: JavaScript's `x ?? default`. */
    function GetOr(default: T): T {
      match this
      case Some(v) => v
      case None => default
    }
  }
}

=== FILE: pool.dfy ===
/** The pool address the hook sends: `poolId.replace('_', ':')`. With a string
    pattern, JavaScript's `replace` rewrites only the FIRST occurrence, so
    `"eth_0xab_cd"` becomes `"eth:0xab_cd"`. */
module Pool {

  /** No `_` among the first `k` characters. */
  predicate NoUnderscoreBefore(s: string, k: nat)
    requires k <= |s|
  {
    forall j :: 0 <= j < k ==> s[j] != '_'
  }

  function ReplaceFirstUnderscore(s: string): (r: string)
    ensures |r| == |s|
    ensures forall k :: 0 <= k < |s| ==>
              r[k] == if s[k] == '_' && NoUnderscoreBefore(s, k) then ':' else s[k]
  {
    if s == [] then []
    else if s[0] == '_' then [':'] + s[1..]
    else
      var rest := ReplaceFirstUnderscore(s[1..]);
      assert forall k :: 1 <= k < |s| ==>
        (NoUnderscoreBefore(s, k) <==> NoUnderscoreBefore(s[1..], k - 1));
      [s[0]] + rest
  }

  function PoolAddress(poolId: string): string {
    ReplaceFirstUnderscore(poolId)
  }

  /** A pool id without `_` is sent unchanged; one with `_` has its first `_`
      turned into `:` and every other character kept, later `_`s included. */
  lemma PoolAddressShape(poolId: string)
    ensures '_' !in poolId ==> PoolAddress(poolId) == poolId
    ensures forall i :: 0 <= i < |poolId| && poolId[i] == '_' && NoUnderscoreBefore(poolId, i) ==>
              PoolAddress(poolId) == poolId[..i] + ":" + poolId[i + 1..]
  {
    if '_' !in poolId {
      NoUnderscoreKept(poolId);
    }
    forall i | 0 <= i < |poolId| && poolId[i] == '_' && NoUnderscoreBefore(poolId, i)
      ensures PoolAddress(poolId) == poolId[..i] + ":" + poolId[i + 1..]
    {
      FirstUnderscoreReplaced(poolId, i);
    }
  }

  /** Without `_` nothing is replaced. */
  lemma NoUnderscoreKept(poolId: string)
    requires '_' !in poolId
    ensures PoolAddress(poolId) == poolId
  {
    var r := PoolAddress(poolId);
    forall k | 0 <= k < |poolId| ensures r[k] == poolId[k] {
      assert poolId[k] in poolId;
    }
  }

  /** The first `_`, at `i`, becomes `:`; every other character stays. */
  lemma FirstUnderscoreReplaced(poolId: string, i: nat)
    requires i < |poolId| && poolId[i] == '_' && NoUnderscoreBefore(poolId, i)
    ensures PoolAddress(poolId) == poolId[..i] + ":" + poolId[i + 1..]
  {
    var r := PoolAddress(poolId);
    var w := poolId[..i] + ":" + poolId[i + 1..];
    assert |w| == |r|;
    forall k | 0 <= k < |poolId| ensures r[k] == w[k] {
      if k < i {
        assert w[k] == poolId[k] != '_';
      } else if k > i {
        assert w[k] == poolId[k];
        assert !NoUnderscoreBefore(poolId, k) by { assert poolId[i] == '_'; }
      }
    }
  }

  /** A three-character id `x_y` becomes `x:y`. */
  lemma ThreeCharPool(x: char, y: char)
    requires x != '_'
    ensures PoolAddress([x, '_', y]) == [x, ':', y]
  {
    var id := [x, '_', y];
    assert id[..1] == [x];
    PoolAddressShape(id);
    assert id[..1] + ":" + id[2..] == [x, ':', y];
  }

  lemma PoolAddressExamples()
    ensures PoolAddress("A_B") == "A:B"
    ensures PoolAddress("C_D") == "C:D"
    ensures PoolAddress("solana") == "solana"
  {
    ThreeCharPool('A', 'B');
    ThreeCharPool('C', 'D');
    PoolAddressShape("solana");
  }

  /** Only the first `_` changes. */
  lemma PoolAddressKeepsLaterUnderscores()
    ensures PoolAddress("eth_0xab_cd") == "eth:0xab_cd"
  {
    var eth := "eth_0xab_cd";
    assert NoUnderscoreBefore(eth, 3);
    FirstUnderscoreReplaced(eth, 3);
    assert eth[..3] + ":" + eth[4..] == "eth:0xab_cd";
  }
}

=== FILE: registry.dfy ===
/** The subscription registry: the set of acknowledged channels and the
    commands `subscribe` and `unsubscribeAll` send. The registry is a
    JavaScript `Set`, which iterates in insertion order, so it is modelled as a
    sequence without repeats. A key is `None` when an acknowledgement named no
    channel: `Set.add(undefined)` then records `undefined`. */
module Registry {
  import opened Optional
  import opened Commands

  type Key = Option<string>

  predicate NoDup<T(==)>(xs: seq<T>) {
    forall i, j :: 0 <= i < j < |xs| ==> xs[i] != xs[j]
  }

  /** `Set.add`: a new key goes last, a known key changes nothing. */
  function Track(tracked: seq<Key>, key: Key): (r: seq<Key>)
    ensures tracked <= r
    ensures forall k :: k in r <==> k in tracked || k == key
    ensures NoDup(tracked) ==> NoDup(r)
    ensures |r| <= |tracked| + 1
  {
    if key in tracked then tracked else tracked + [key]
  }

  /** The commands `subscribe(channel, data)` sends. It checks only the
      acknowledged keys and records nothing itself. */
  function SubscribeCommands(tracked: seq<Key>, channel: string, data: Option<Payload>): (r: seq<Command>)
    ensures Some(channel) in tracked <==> r == []
    ensures r != [] ==> r[0] == Subscribe(channel)
    ensures r != [] ==> |r| == (if data.Some? then 2 else 1)
    ensures r != [] && data.Some? ==> r[1] == Message(channel, data.value)
    ensures Pong !in r
    ensures forall c | c in r :: !c.Unsubscribe?
  {
    if Some(channel) in tracked then []
    else [Subscribe(channel)] + (if data.Some? then [Message(channel, data.value)] else [])
  }

  /** The commands `unsubscribeAll` sends: one per tracked key, in the
      registry's iteration order. */
  function UnsubscribeCommands(tracked: seq<Key>): (r: seq<Command>)
    ensures |r| == |tracked|
    ensures forall i :: 0 <= i < |tracked| ==> r[i] == Unsubscribe(tracked[i])
  {
    if tracked == [] then []
    else [Unsubscribe(tracked[0])] + UnsubscribeCommands(tracked[1..])
  }

  /** `unsubscribeAll` names each tracked channel exactly once and nothing
      else, so the server is asked to drop every acknowledged channel. */
  lemma UnsubscribeNamesEachTrackedOnce(tracked: seq<Key>)
    requires NoDup(tracked)
    ensures forall k :: Unsubscribe(k) in UnsubscribeCommands(tracked) <==> k in tracked
    ensures NoDup(UnsubscribeCommands(tracked))
    ensures Pong !in UnsubscribeCommands(tracked)
  {
    var r := UnsubscribeCommands(tracked);
    forall k | Unsubscribe(k) in r ensures k in tracked {
      var i :| 0 <= i < |r| && r[i] == Unsubscribe(k);
      assert tracked[i] == k;
    }
    forall k | k in tracked ensures Unsubscribe(k) in r {
      var i :| 0 <= i < |tracked| && tracked[i] == k;
      assert r[i] == Unsubscribe(k);
    }
  }
}

=== FILE: traces.dfy ===
/** Runs of the hook over event sequences, and what holds of every run. */
module Traces {
  import opened Optional
  import opened Frames
  import opened Commands
  import opened Registry
  import opened LiveSocket
  import TradeFeed
  import Pool

  function Run(s: State, es: seq<Event>): State
    decreases |es|
  {
    if es == [] then s else Run(Step(s, es[0]), es[1..])
  }

  /** How many pings the events deliver. */
  function Pings(es: seq<Event>): nat {
    if es == [] then 0
    else (if es[0].Received? && IsPing(es[0].frame) then 1 else 0) + Pings(es[1..])
  }

  /** Every key an acknowledgement among the events names. */
  function AckedIn(es: seq<Event>): set<Key> {
    if es == [] then {}
    else
      (if es[0].Received? && Decode(es[0].frame).Ack? then {Decode(es[0].frame).channel} else {})
      + AckedIn(es[1..])
  }

  /** The trade an event delivers, if any. */
  function TradeOfEvent(e: Event): Option<Trade> {
    if e.Received? && Decode(e.frame).Data? then Decode(e.frame).trade else None
  }

  /** The trades the events deliver, in arrival order. */
  function TradesIn(es: seq<Event>): seq<Trade> {
    if es == [] then []
    else (if TradeOfEvent(es[0]).Some? then [TradeOfEvent(es[0]).value] else []) + TradesIn(es[1..])
  }

  predicate NoTargetChange(es: seq<Event>) {
    forall i :: 0 <= i < |es| ==> !es[i].TargetChanged?
  }

  lemma {:induction false} RunPreservesValid(s: State, es: seq<Event>)
    requires Valid(s)
    ensures Valid(Run(s, es))
    decreases |es|
  {
    if es != [] {
      RunPreservesValid(Step(s, es[0]), es[1..]);
    }
  }

  /** The log is append-only over any run. */
  lemma {:induction false} RunExtendsLog(s: State, es: seq<Event>)
    ensures s.log <= Run(s, es).log
    decreases |es|
  {
    if es != [] {
      RunExtendsLog(Step(s, es[0]), es[1..]);
    }
  }

  /** One step sends one pong for a ping frame and none for anything else. */
  lemma StepPongs(s: State, e: Event)
    ensures CountPongs(Step(s, e).log) == CountPongs(s.log) + (if e.Received? && IsPing(e.frame) then 1 else 0)
  {
    var next := Step(s, e);
    var sent := next.log[|s.log|..];
    assert next.log == s.log + sent;
    CountPongsAppend(s.log, sent);
    match e
    case Received(f) =>
      if !IsPing(f) {
        assert sent == [];
      } else {
        assert sent == [Pong];
      }
    case TargetChanged(t) =>
      if s.isReady && (s.socket.Open? || s.socket.Closing?) {
        TargetChangeCommands(s, t);
        CountPongsAbsent(sent);
      } else {
        assert sent == [];
      }
    case TornDown =>
      assert Pong !in sent;
      CountPongsAbsent(sent);
    case _ =>
      assert sent == [];
  }

  /** Exactly one pong per ping, and no pong otherwise. */
  lemma {:induction false} RunPongCount(s: State, es: seq<Event>)
    ensures CountPongs(Run(s, es).log) == CountPongs(s.log) + Pings(es)
    decreases |es|
  {
    if es != [] {
      StepPongs(s, es[0]);
      RunPongCount(Step(s, es[0]), es[1..]);
    }
  }

  /** The registry only ever holds what it held before or what an
      acknowledgement named: a sent subscribe alone records nothing. */
  lemma {:induction false} RunTracksOnlyAcked(s: State, es: seq<Event>)
    ensures forall k :: k in Run(s, es).subscribed ==> k in s.subscribed || k in AckedIn(es)
    decreases |es|
  {
    if es != [] {
      var next := Step(s, es[0]);
      RunTracksOnlyAcked(next, es[1..]);
      assert forall k :: k in next.subscribed ==> k in s.subscribed || k in AckedIn(es[..1]);
      assert AckedIn(es) == AckedIn(es[..1]) + AckedIn(es[1..]) by {
        assert es[..1][1..] == [];
      }
    }
  }

  /** Frames the hook does not recognise change nothing, however many. */
  lemma {:induction false} RunIgnoresUnknownFrames(s: State, es: seq<Event>)
    requires forall i :: 0 <= i < |es| ==> es[i].Received? && IsUnknown(es[i].frame)
    ensures Run(s, es) == s
    decreases |es|
  {
    if es != [] {
      RunIgnoresUnknownFrames(s, es[1..]);
    }
  }

  /** One event other than a target change pushes the trade it delivers and
      otherwise leaves the feed alone. */
  lemma StepTrade(s: State, e: Event)
    requires !e.TargetChanged?
    ensures Step(s, e).trades ==
              if TradeOfEvent(e).Some? then TradeFeed.Push(s.trades, TradeOfEvent(e).value) else s.trades
  {
  }

  /** Without a target change, the hook's feed is the trades it received
      pushed one by one, in arrival order. */
  lemma {:induction false} RunFeedPushesEachTrade(s: State, es: seq<Event>)
    requires NoTargetChange(es)
    ensures Run(s, es).trades == TradeFeed.PushAll(s.trades, TradesIn(es))
    decreases |es|
  {
    if es != [] {
      var next := Step(s, es[0]);
      assert NoTargetChange(es[1..]) by {
        assert forall i :: 0 <= i < |es[1..]| ==> es[1..][i] == es[i + 1];
      }
      StepTrade(s, es[0]);
      RunFeedPushesEachTrade(next, es[1..]);
      if TradeOfEvent(es[0]).Some? {
        var t := TradeOfEvent(es[0]).value;
        assert TradesIn(es) == [t] + TradesIn(es[1..]);
        assert ([t] + TradesIn(es[1..]))[1..] == TradesIn(es[1..]);
      } else {
        assert TradesIn(es) == TradesIn(es[1..]);
      }
    }
  }

  /** Without a target change, the feed is always the newest seven trades
      received, newest first, topped up from the feed before the run. */
  lemma RunTradeFeed(s: State, es: seq<Event>)
    requires |s.trades| <= TradeFeed.Cap
    requires NoTargetChange(es)
    ensures Run(s, es).trades == TradeFeed.Window(TradeFeed.Reverse(TradesIn(es)) + s.trades)
  {
    RunFeedPushesEachTrade(s, es);
    TradeFeed.PushAllIsNewestWindow(s.trades, TradesIn(es));
  }

  /** After a target change the feed holds only trades received after it:
      nothing from the previous target survives the reset. */
  lemma RetargetForgetsEarlierTrades(s: State, t: Target, es: seq<Event>)
    requires s.isReady && !s.socket.NoSocket?
    requires NoTargetChange(es)
    ensures Run(s, [TargetChanged(t)] + es).trades == TradeFeed.Window(TradeFeed.Reverse(TradesIn(es)))
  {
    var after := Step(s, TargetChanged(t));
    assert ([TargetChanged(t)] + es)[1..] == es;
    assert Run(s, [TargetChanged(t)] + es) == Run(after, es);
    RunTradeFeed(after, es);
    assert TradeFeed.Reverse(TradesIn(es)) + [] == TradeFeed.Reverse(TradesIn(es));
  }

  /** De-duplication looks only at acknowledged channels, so two subscribes
      before the ack both go out. */
  lemma SubscribeTwiceBeforeAck(s: State, channel: string, data: Option<Payload>)
    requires Some(channel) !in s.subscribed
    ensures var once := SubscribeCommands(s.subscribed, channel, data);
            && once != []
            && SubscribeOn(SubscribeOn(s, channel, data), channel, data).log == s.log + once + once
            && SubscribeOn(SubscribeOn(s, channel, data), channel, data).subscribed == s.subscribed
  {
  }

  /** Once the ack has arrived, subscribing to the channel again sends nothing. */
  lemma SubscribeAfterAckIsSilent(s: State, f: Frame, data: Option<Payload>)
    requires IsAck(f) && f.identifier.Some? && f.identifier.value.ChannelNamed?
    ensures SubscribeCommands(HandleFrame(s, f).subscribed, f.identifier.value.name, data) == []
  {
  }

  /** The microtask run twice on an open socket with no ack in between: the
      second run finds nothing to unsubscribe and repeats every request. */
  lemma {:induction false} RetargetTwiceBeforeAck(s: State, t: Target)
    requires s.isReady && s.socket.Open?
    ensures Run(s, [TargetChanged(t), TargetChanged(t)]).log
              == s.log + UnsubscribeCommands(s.subscribed) + TargetRequests(t) + TargetRequests(t)
  {
    var once := Step(s, TargetChanged(t));
    var twice := Step(once, TargetChanged(t));
    assert [TargetChanged(t), TargetChanged(t)][1..] == [TargetChanged(t)];
    assert Run(s, [TargetChanged(t), TargetChanged(t)]) == Run(once, [TargetChanged(t)]);
    assert Run(once, [TargetChanged(t)]) == Run(twice, []);
    assert UnsubscribeCommands(once.subscribed) == [];
  }

  /** A price-only target asks for the price channel alone, yet a trade frame
      that still arrives is taken into the feed: frames are not matched
      against the registry. */
  lemma PriceOnlyTargetStillTakesTrades(s: State, t: Target, f: Frame)
    requires s.isReady && s.socket.Open? && s.subscribed == []
    requires !HasPool(t)
    requires IsDataFrame(f) && IsTradeFrame(f)
    ensures Step(s, TargetChanged(t)).log
              == s.log + [Subscribe(PriceChannel), Message(PriceChannel, SetTokens([t.coinId]))]
    ensures Step(Step(s, TargetChanged(t)), Received(f)).trades == [TradeOf(f)]
  {
  }

  /** The microtask for pool "C_D" run on an open socket whose registry holds
      the three channels: the data is cleared, the three channels are dropped
      first, then the new ones are requested for address "C:D". */
  lemma PoolChangeScenario(s: State, coinId: string, interval: Interval)
    requires s.isReady && s.socket.Open?
    requires s.subscribed == [Some(PriceChannel), Some(TradeChannel), Some(CandleChannel)]
    ensures var r := Step(s, TargetChanged(Target(coinId, Some("C_D"), interval)));
            && r.price.None? && r.trades == [] && r.ohlcv.None? && r.subscribed == []
            && r.log == s.log
                 + [Unsubscribe(Some(PriceChannel)), Unsubscribe(Some(TradeChannel)), Unsubscribe(Some(CandleChannel))]
                 + [Subscribe(PriceChannel), Message(PriceChannel, SetTokens([coinId])),
                    Subscribe(TradeChannel), Message(TradeChannel, SetPools(["C:D"], None)),
                    Subscribe(CandleChannel), Message(CandleChannel, SetPools(["C:D"], Some(interval)))]
  {
    var t := Target(coinId, Some("C_D"), interval);
    assert Step(s, TargetChanged(t)) == ApplyTarget(s, t);
    assert HasPool(t) && Pool.PoolAddress("C_D") == "C:D" by {
      Pool.PoolAddressExamples();
    }
    PoolTargetRequests(t, "C:D");
    ThreeUnsubscribes(s.subscribed);
  }

  lemma ThreeUnsubscribes(tracked: seq<Key>)
    requires tracked == [Some(PriceChannel), Some(TradeChannel), Some(CandleChannel)]
    ensures UnsubscribeCommands(tracked)
              == [Unsubscribe(Some(PriceChannel)), Unsubscribe(Some(TradeChannel)), Unsubscribe(Some(CandleChannel))]
  {
  }

  /** A change of target as React runs it: the cleanup closes the old socket,
      a new socket is created, and the microtask still sees the flag set. On
      the connecting socket its first send throws, so it only clears the data.
      When the old socket's close event comes before the new socket opens, the
      microtask runs again on the open socket and sends the requests. Nothing
      is ever unsubscribed: the cleanup had already emptied the registry. */
  lemma {:induction false} ArgsChangeScenario(s: State, t: Target)
    requires s.isReady && s.socket.Open?
    ensures var early := Run(s, [TornDown, Connect, TargetChanged(t)]);
            && early.log == s.log + [CloseSocket]
            && early.price.None? && early.trades == [] && early.ohlcv.None?
            && early.subscribed == [] && early.isReady
    ensures var done := Run(s, [TornDown, Connect, TargetChanged(t), Closed, Opened, TargetChanged(t)]);
            && done.log == s.log + [CloseSocket] + TargetRequests(t)
            && done.subscribed == [] && done.isReady && done.socket.Open?
  {
    var s1 := Step(s, TornDown);
    var s2 := Step(s1, Connect);
    var s3 := Step(s2, TargetChanged(t));
    var s4 := Step(s3, Closed);
    var s5 := Step(s4, Opened);
    var s6 := Step(s5, TargetChanged(t));
    RunThree(s, TornDown, Connect, TargetChanged(t));
    RunThree(s3, Closed, Opened, TargetChanged(t));
    RunConcat(s, [TornDown, Connect, TargetChanged(t)], [Closed, Opened, TargetChanged(t)]);
    assert [TornDown, Connect, TargetChanged(t)] + [Closed, Opened, TargetChanged(t)]
             == [TornDown, Connect, TargetChanged(t), Closed, Opened, TargetChanged(t)];
    assert s6.log == s5.log + TargetRequests(t);
  }

  /** When the new socket opens before the old one's close event, the flag is
      already set, so nothing re-runs the microtask; the late close then
      clears the flag. The hook ends on an open socket, reporting itself
      disconnected, having requested nothing, and any later microtask is
      ignored while the flag stays false. */
  lemma {:induction false} OpenBeforeStaleClose(s: State, t: Target)
    requires s.isReady && s.socket.Open?
    ensures var r := Run(s, [TornDown, Connect, TargetChanged(t), Opened, Closed]);
            && r.log == s.log + [CloseSocket]
            && r.socket.Open? && !r.isReady && r.subscribed == []
            && Step(r, TargetChanged(t)) == r
  {
    RunThree(s, TornDown, Connect, TargetChanged(t));
    var s3 := Run(s, [TornDown, Connect, TargetChanged(t)]);
    RunTwo(s3, Opened, Closed);
    RunConcat(s, [TornDown, Connect, TargetChanged(t)], [Opened, Closed]);
    assert [TornDown, Connect, TargetChanged(t)] + [Opened, Closed]
             == [TornDown, Connect, TargetChanged(t), Opened, Closed];
  }

  /** First mount: the connection effect creates the socket, its open
      callback sets the flag, and the microtask that the flag queues sends
      exactly the target's requests, with nothing to unsubscribe. */
  lemma {:induction false} FirstMount(t: Target)
    ensures var r := Run(Initial, [Connect, Opened, TargetChanged(t)]);
            && r.log == TargetRequests(t)
            && r.socket.Open? && r.isReady && r.subscribed == []
            && Valid(r)
  {
    RunThree(Initial, Connect, Opened, TargetChanged(t));
    InitialValid();
    RunPreservesValid(Initial, [Connect, Opened, TargetChanged(t)]);
  }

  lemma {:induction false} RunConcat(s: State, a: seq<Event>, b: seq<Event>)
    ensures Run(s, a + b) == Run(Run(s, a), b)
    decreases |a|
  {
    if a == [] {
      assert a + b == b;
    } else {
      assert (a + b)[0] == a[0];
      assert (a + b)[1..] == a[1..] + b;
      RunConcat(Step(s, a[0]), a[1..], b);
    }
  }

  lemma RunTwo(s: State, e1: Event, e2: Event)
    ensures Run(s, [e1, e2]) == Step(Step(s, e1), e2)
  {
    assert [e1, e2][1..] == [e2];
    assert [e2][1..] == [];
    assert Run(s, [e1, e2]) == Run(Step(s, e1), [e2]);
    assert Run(Step(s, e1), [e2]) == Run(Step(Step(s, e1), e2), []);
  }

  lemma RunThree(s: State, e1: Event, e2: Event, e3: Event)
    ensures Run(s, [e1, e2, e3]) == Step(Step(Step(s, e1), e2), e3)
  {
    assert [e1, e2, e3][1..] == [e2, e3];
    RunTwo(Step(s, e1), e2, e3);
  }
}

=== FILE: trade_feed.dfy ===
/** The trade feed: newest first, at most `Cap` entries, the oldest dropped on
    overflow (`[trade, ...prev].slice(0, 7)`). */
module TradeFeed {

  const Cap: nat := 7

  /** The first `Cap` elements, or all of them when there are fewer. */
  function Window<T>(xs: seq<T>): (r: seq<T>)
    ensures |r| == if |xs| < Cap then |xs| else Cap
    ensures r <= xs
  {
    if |xs| <= Cap then xs else xs[..Cap]
  }

  function Push<T>(feed: seq<T>, t: T): (r: seq<T>)
    ensures 0 < |r| <= Cap
    ensures |r| == if |feed| < Cap then |feed| + 1 else Cap
    ensures r[0] == t
    ensures r[1..] <= feed
  {
    Window([t] + feed)
  }

  function Reverse<T>(xs: seq<T>): (r: seq<T>)
    ensures |r| == |xs|
    ensures forall i :: 0 <= i < |xs| ==> r[i] == xs[|xs| - 1 - i]
  {
    if xs == [] then [] else Reverse(xs[1..]) + [xs[0]]
  }

  /** Truncating the tail first does not change the window. */
  lemma WindowAbsorbs<T>(ys: seq<T>, zs: seq<T>)
    ensures Window(ys + Window(zs)) == Window(ys + zs)
  {
    if |zs| > Cap {
      var a := ys + zs[..Cap];
      var b := ys + zs;
      assert |a| >= Cap;
      assert forall i :: 0 <= i < Cap ==> a[i] == b[i];
      assert a[..Cap] == b[..Cap];
    }
  }

  /** Pushing trades one by one, in arrival order. */
  function PushAll<T>(feed: seq<T>, ts: seq<T>): seq<T>
    decreases |ts|
  {
    if ts == [] then feed else PushAll(Push(feed, ts[0]), ts[1..])
  }

  /** After any run of pushes the feed is the newest `Cap` trades, newest
      first, drawn from the arrivals and then the earlier feed. */
  lemma {:induction false} PushAllIsNewestWindow<T>(feed: seq<T>, ts: seq<T>)
    requires |feed| <= Cap
    ensures PushAll(feed, ts) == Window(Reverse(ts) + feed)
    decreases |ts|
  {
    if ts == [] {
      assert Reverse(ts) + feed == feed;
    } else {
      var pushed := Push(feed, ts[0]);
      PushAllIsNewestWindow(pushed, ts[1..]);
      WindowAbsorbs(Reverse(ts[1..]), [ts[0]] + feed);
      assert Reverse(ts[1..]) + ([ts[0]] + feed) == Reverse(ts) + feed;
    }
  }
}
